=== FILE: README.md ===
# Pirate game: a verified model of the game state

The game is a 10×10 board in a web page. The player steers a ship from the
top-left square to the treasure on the bottom-right square. Icebergs stay
put. Pirates move one square in a random direction every 500 ms. Reaching
the treasure wins. Moving onto a pirate or an iceberg loses, and so does
being reached by a pirate. In the original the board lives in the CSS
class lists of the squares' DOM nodes. The announcement's text and its
`winText` class (app.js:113, 131, 164-165) and the global interval handle
`clock` (app.js:6, 168) hold the rest. This model makes that state
explicit:

- `Board` (board.dfy) defines the six tags a square can carry: `boat`,
  `treasure`, `pirate`, `iceberg`, `boat_explosion`, `boat_sunk`. A square
  is a *set* of tags, since a pirate can share the top-left square with the
  boat. The board is the 100 squares in document order (row 0 first). The
  module also has the sibling and same-column lookups that find a
  neighbour, and the document-order queries `querySelector` and
  `querySelectorAll` (`FirstWith`, `Holders`).
- `Rules` (rules.dfy) holds the rules as functions on a value
  `State(cells, status, winText, clockRunning)`: the target predicates
  (`IsWin`, `IsLoss`, `CanMoveToNewLocation`, `IsPirateWin`,
  `CanPirateMoveToElement`) and one transition per operation. It also has
  the game invariant `Consistent`. While the clock runs there is exactly
  one boat; once the game is over there is none. The treasure is always on
  the bottom-right square. The boat never sits on an iceberg or the
  treasure. No square holds a pirate and an iceberg together, and no
  iceberg is ever on the top-left square.
- `Properties` (properties.dfy) proves what each operation does and that
  each keeps `Consistent`.
- `PirateGame.Game` (game.dfy) is the page itself: a class with the board
  as an `array`, the announcement text, the `winText` flag and
  `clockRunning`, which stands for the interval handle. Each method does
  the in-place steps of the function of the same name in `app.js`. Each is
  proved equal to its `Rules` function, and the public operations keep
  `Valid()`.

Randomness is passed in. `createObstacles` takes 98 draws in 1..100, one
per square other than the two corners, in document order. `runTick` takes
one draw in 0..3 per pirate in its snapshot. The draws index
`up, right, down, left`, the order of the `directions` table.

Choices where the source leaves room:

- A ship move when no boat exists (after a win or a loss) is a no-op. The
  original throws a `TypeError` in `moveShip*` before anything changes,
  which has the same effect on the state.
- `resetBoat` clears only the *first* `boat` square and the *first*
  `boat_sunk` square, as `querySelector` does. It never clears
  `boat_explosion`. With at most one of each, reset leaves none
  (`ResetBoatClears`, `ResetGameClearsWreck`). A second boat or sunk
  marker would survive a reset (app.js:172-180).
- `runTick` walks the list `querySelectorAll` returns, which is static:
  the set of squares is fixed when the tick starts (app.js:275). Each
  snapshot square is visited exactly once. A step removes the pirate tag
  only from the mover's own square and adds it only to a square without a
  pirate, so every snapshot square still waiting for its turn keeps its
  pirate (`PirateStepKeepsOtherPirates`). A pirate can move onto a square
  whose turn has already passed, and in the next tick it moves again from
  there. After a pirate sinks the boat, the rest of the snapshot still
  moves, and a pirate may enter the exploding square
  (`LatePirateEntersWreck`).
- `createObstacles` skips both corners, so a pirate that wandered onto the
  top-left square survives a reset next to the new boat
  (`ResetGameKeepsCornerPirate`).

## Model

| member | source | states |
|---|---|---|
| Board.DirectionOf | pirates/js/app.js:278-279 | draw 0, 1, 2, 3 picks up, right, down, left, the order of the `directions` table, and each direction comes from exactly one draw |
| Board.NextSibling | pirates/js/app.js:39 | `nextElementSibling` of a square: none exactly on the last column, otherwise the square one column to the right in the same row |
| Board.PreviousSibling | pirates/js/app.js:45 | `previousElementSibling` of a square: none exactly on the first column, otherwise the square one column to the left in the same row |
| Board.NextRow | pirates/js/app.js:51 | the row after the square's row: none exactly on the last row, otherwise the row index plus one |
| Board.PreviousRow | pirates/js/app.js:58 | the row before the square's row: none exactly on the first row, otherwise the row index minus one |
| Board.ElementAtSameIndex | pirates/js/app.js:82-91 | a square exists exactly when the new row exists; it lies in that row and in the same column as the given square |
| Board.Neighbour | pirates/js/app.js:289-308 | the neighbour in each direction exists exactly when one step in that direction stays on the 10×10 board; it is the square one row or one column away |
| Board.FirstWith | pirates/js/app.js:94-97 | `getShipLocation` finds nothing exactly when no square carries the tag; otherwise it finds the first square in document order that does |
| Board.Holders | pirates/js/app.js:275 | the snapshot lists every square carrying a pirate, each once, in strictly increasing document order |
| Rules.IsWin | pirates/js/app.js:106-108 | a target is a win only when it exists on the board and holds the treasure |
| Rules.IsLoss | pirates/js/app.js:123-127 | a missing target is never a loss |
| Rules.CanMoveToNewLocation | pirates/js/app.js:74-80 | the boat may move exactly onto an existing target that is not a loss (no pirate, no iceberg) |
| Rules.IsPirateWin | pirates/js/app.js:310-312 | a missing target never sinks the boat |
| Rules.CanPirateMoveToElement | pirates/js/app.js:314-316 | a pirate may move exactly onto an existing target that holds no pirate, no iceberg and no treasure |
| Rules.Win | pirates/js/app.js:110-117 | "You Win!" with `winText`, clock stopped; one boat fewer; every square keeps its tags other than `boat` |
| Rules.Lose | pirates/js/app.js:129-144 | the given message, `winText` kept, clock stopped; one boat fewer; the square that lost the boat gains `boat_explosion`; all other tags kept |
| Rules.MoveShip | pirates/js/app.js:63-72 | no move adds or removes a pirate, an iceberg or the treasure on any square, and the number of boats never grows |
| Rules.MoveShipDirection | pirates/js/app.js:37-61 | the same for a move in a direction, including a move with no boat on the board |
| Rules.CreateObstacles | pirates/js/app.js:187-199 | both corners are untouched; every other square i gets an iceberg iff its draw `draws[i - 1]` is above 85 and a pirate iff it is in 81..85, so never both; every square keeps its other tags |
| Rules.RemoveFirst | pirates/js/app.js:171-181 | one `querySelector(...).classList.remove`: the count of the tag drops by one, or stays zero; no other tag changes |
| Rules.ResetBoat | pirates/js/app.js:171-181 | the boat count and the sunk-marker count each drop by one or stay zero; every other tag stays |
| Rules.ResetGame | pirates/js/app.js:150-169 | "Play!" without `winText`, clock running; boat on the top-left square, treasure on the bottom-right; no other square holds both a pirate and an iceberg; every other square i holds an iceberg iff its draw `draws[i - 1]` is above 85 and a pirate iff it is in 81..85 |
| Rules.FinishSinking | pirates/js/app.js:138-141 | the square becomes `boat_sunk` and loses `boat_explosion`; no other tag and no other square changes; status, `winText` and clock are kept |
| Rules.PirateStep | pirates/js/app.js:277-316 | one pirate's turn keeps every iceberg and the treasure where they are and gives no square a boat; when the drawn neighbour exists and holds no pirate, iceberg, treasure or boat, the pirate leaves its square for that one, and nothing else changes; when the neighbour is missing, or holds a pirate, iceberg or treasure but no boat, the state is unchanged |
| Rules.TickFrom | pirates/js/app.js:277-286 | the rest of a tick keeps every iceberg and the treasure where they are and gives no square a boat |
| Rules.RunTick | pirates/js/app.js:274-287 | a whole tick keeps every iceberg and the treasure where they are and gives no square a boat |
| Rules.AddObstacles | pirates/js/app.js:253-267 | an iceberg is added iff the draw is above 85; a pirate iff the draw is in 81..85; all other tags are unchanged |
| Properties.BlankIsSound | pirates/js/app.js:204-213 | the freshly built empty board meets what a reset needs |
| Properties.GameOverIgnoresMoves | pirates/js/app.js:37-61 | once the game is over there is no boat, and every ship move leaves the state unchanged |
| Properties.MoveOffEdgeChangesNothing | pirates/js/app.js:63-91 | a move whose step leaves the board changes nothing: no win, no loss, no move |
| Properties.WinEndsGame | pirates/js/app.js:110-117 | `win` sets "You Win!" and `winText`, stops the clock and leaves no boat; every other tag stays; the invariant holds |
| Properties.LoseEndsGame | pirates/js/app.js:129-144 | `lose` sets the message and stops the clock; the boat's square trades `boat` for `boat_explosion`; other squares are unchanged; no boat remains |
| Properties.MoveOntoTreasure | pirates/js/app.js:63-65 | moving onto the treasure wins; the old square loses `boat`, no square gains it, and the treasure square is unchanged |
| Properties.MoveOntoObstacle | pirates/js/app.js:66-67 | moving onto a pirate or iceberg gives "You hit an obstacle!"; the boat's square becomes an explosion, the target is unchanged, the clock stops |
| Properties.MoveIntoOpenWater | pirates/js/app.js:68-80 | moving onto a free square carries `boat` there and changes no other square; exactly one boat exists before and after, and it is the new square |
| Properties.ThreeMovesRight | pirates/js/app.js:37-41 | from the top-left square, three moves right over open water end at row 0, column 3, still in play |
| Properties.MoveShipKeepsConsistent | pirates/js/app.js:63-72 | every ship move keeps the game invariant |
| Properties.ResetBoatClears | pirates/js/app.js:171-181 | with at most one boat and one sunk boat, `resetBoat` leaves neither, and every other tag stays |
| Properties.ResetGameStartsPlay | pirates/js/app.js:150-169 | reset leaves exactly one boat, on the top-left square, the treasure on the bottom-right one, "Play!" without `winText`, the clock running, and the invariant |
| Properties.ResetGameClearsWreck | pirates/js/app.js:171-181 | with at most one sunk boat beforehand, no square is `boat_sunk` after a reset |
| Properties.ResetGameKeepsCornerPirate | pirates/js/app.js:156-160 | a pirate on the top-left square survives a reset and shares the square with the new boat |
| Properties.FinishSinkingKeepsConsistent | pirates/js/app.js:138-141 | the delayed step trades `boat_explosion` for `boat_sunk` on its square only, keeps status, `winText` and the clock, and keeps the invariant |
| Properties.PirateStepKeepsOtherPirates | pirates/js/app.js:282-285 | a pirate step removes the pirate tag from no square but the mover's own, so each pending snapshot pirate is still there on its turn |
| Properties.PirateStepMovesIntoOpenWater | pirates/js/app.js:314-316 | a square gains a pirate only as the on-board neighbour in the drawn direction, and only if it held no iceberg, treasure or boat; the mover's square loses its pirate |
| Properties.PirateSinksShip | pirates/js/app.js:280-281 | a target holding the boat is exactly `lose('You were sunk by a pirate')`: the message, `winText` kept, clock stopped; the pirate stays put, the boat's square becomes an explosion and no other square changes |
| Properties.PirateStepKeepsTags | pirates/js/app.js:277-286 | one pirate step keeps the pirate count, every iceberg square and the treasure square |
| Properties.TickFromKeepsTags | pirates/js/app.js:277-286 | while each pending snapshot square holds its pirate, the rest of the tick keeps the pirate count, icebergs and treasure |
| Properties.RunTickKeepsTags | pirates/js/app.js:274-287 | a tick keeps the number of pirate squares, every iceberg square and the treasure square |
| Properties.RunTickKeepsConsistent | pirates/js/app.js:274-316 | a tick keeps the invariant and the number of pirate squares: no pirate lands on an iceberg, the treasure or another pirate, and a sinking leaves no boat and no clock |
| Properties.LatePirateEntersWreck | pirates/js/app.js:277-316 | after a mid-tick sinking, a later snapshot pirate still moves and can enter the `boat_explosion` square |
| PirateGame.Game.ShipLocation | pirates/js/app.js:94-97 | `getShipLocation` on the array: none exactly when no square has the boat, otherwise the first square in document order that has it |
| PirateGame.Game.constructor | pirates/js/app.js:204-213 | builds the empty board, resets it, and establishes `Valid()` |
| PirateGame.Game.MoveShipRight | pirates/js/app.js:37-41 | agrees with `Rules.MoveShipDirection(_, Right)` and keeps `Valid()` |
| PirateGame.Game.MoveShipLeft | pirates/js/app.js:43-47 | agrees with `Rules.MoveShipDirection(_, Left)` and keeps `Valid()` |
| PirateGame.Game.MoveShipDown | pirates/js/app.js:49-54 | agrees with `Rules.MoveShipDirection(_, Down)` and keeps `Valid()` |
| PirateGame.Game.MoveShipUp | pirates/js/app.js:56-61 | agrees with `Rules.MoveShipDirection(_, Up)` and keeps `Valid()` |
| PirateGame.Game.MoveShip | pirates/js/app.js:63-72 | agrees with `Rules.MoveShip`: win, else lose, else move, else nothing |
| PirateGame.Game.Win | pirates/js/app.js:110-117 | agrees with `Rules.Win` |
| PirateGame.Game.Lose | pirates/js/app.js:129-144 | agrees with `Rules.Lose` |
| PirateGame.Game.FinishSinking | pirates/js/app.js:138-141 | agrees with `Rules.FinishSinking` and keeps `Valid()` |
| PirateGame.Game.ResetGame | pirates/js/app.js:150-169 | agrees with `Rules.ResetGame` and establishes `Valid()` from any sound board |
| PirateGame.Game.ResetBoat | pirates/js/app.js:171-181 | agrees with `Rules.ResetBoat` |
| PirateGame.Game.CreateObstacles | pirates/js/app.js:187-199 | its nested row and column loops produce `Rules.CreateObstacles` |
| PirateGame.Game.AddObstacles | pirates/js/app.js:253-267 | changes only the given square, to `Rules.AddObstacles` of its old tags |
| PirateGame.Game.RunTick | pirates/js/app.js:274-287 | its loop over the snapshot produces `Rules.RunTick` and keeps `Valid()` |

## Left out

- Building the grid in the DOM (`createGrid`, `buildRow`, `buildSquare`): the model starts from an empty 10×10 board. The announcement's text before the first reset comes from the page markup, which is not part of this model; it is taken as empty.
- Keyboard and button wiring: the class has one method per direction and `ResetGame`.
- `getRandomNumber` draws a float from `Math.random`. The integer draws are parameters with range preconditions instead.
- Timers: the interval is only the `clockRunning` flag. Nothing calls `RunTick` on a schedule. A caller stands in for the interval and calls it only while the flag is set; `runTick` itself does not check it.
- The intervals that stack up when the game is reset mid-play are not modelled. The old interval is never cleared, and this is a timer artefact.
- The 300 ms explosion-to-wreck swap is `FinishSinking`, a separate step without timing, applied to the square the callback captured. `FinishSinking` may be applied at any time to any square; which callbacks are pending is not tracked.
- `document.querySelectorAll('div.row')` (app.js:188) and `document.querySelectorAll('.pirate')` (app.js:275) search the whole page. The model assumes the page has no other `div.row` or `.pirate` elements outside the board.
- Text and styling of the announcement beyond the status string and the `winText` flag.

=== FILE: board.dfy ===
/**
 * The 10x10 board: the CSS classes a square can carry, the squares stored
 * row by row in document order, the neighbour lookups that walk the DOM
 * siblings, and the document-order queries over the squares.
 */
module Board {
  import opened Wrappers

  /** The classes of a square that carry game state. */
  datatype Tag = Boat | Treasure | Pirate | Iceberg | BoatExplosion | BoatSunk

  /** A square is its class list: a set, since a square may carry several tags at once. */
  type Cell = set<Tag>

  /** The squares in document order: row 0 first, each row left to right. */
  type Grid = seq<Cell>

  const Size: nat := 10
  const CellCount: nat := 100
  /** The square the ship starts on, `frame.firstElementChild.firstElementChild`. */
  const TopLeft: nat := 0
  /** The treasure square, `frame.lastElementChild.lastElementChild`. */
  const BottomRight: nat := 99

  function Row(i: nat): nat { i / Size }
  function Col(i: nat): nat { i % Size }

  predicate OnBoard(row: int, col: int) { 0 <= row < Size && 0 <= col < Size }

  /** The order of the `directions` table, indexed by a draw in 0..3. */
  datatype Direction = Up | Right | Down | Left

  function DirectionOf(rand: int): (d: Direction)
    requires 0 <= rand < 4
    ensures (d == Up <==> rand == 0) && (d == Right <==> rand == 1)
    ensures (d == Down <==> rand == 2) && (d == Left <==> rand == 3)
  {
    [Up, Right, Down, Left][rand]
  }

  /** Row and column offsets of a step: the reference meaning of each direction. */
  function RowStep(d: Direction): int
  {
    match d
    case Up => -1
    case Down => 1
    case _ => 0
  }

  function ColStep(d: Direction): int
  {
    match d
    case Left => -1
    case Right => 1
    case _ => 0
  }

  /** `nextElementSibling` of a square: the square to its right in the same row. */
  function NextSibling(i: nat): (r: Option<nat>)
    requires i < CellCount
    ensures r.None? ==> Col(i) == Size - 1
    ensures r.Some? ==> Row(r.value) == Row(i) && Col(r.value) == Col(i) + 1
  {
    if Col(i) < Size - 1 then Some(i + 1) else None
  }

  /** `previousElementSibling` of a square. */
  function PreviousSibling(i: nat): (r: Option<nat>)
    requires i < CellCount
    ensures r.None? ==> Col(i) == 0
    ensures r.Some? ==> Row(r.value) == Row(i) && Col(r.value) + 1 == Col(i)
  {
    if Col(i) > 0 then Some(i - 1) else None
  }

  /** `parentElement.nextElementSibling`: the index of the row below, if any. */
  function NextRow(i: nat): (r: Option<nat>)
    requires i < CellCount
    ensures r.None? <==> Row(i) == Size - 1
    ensures r.Some? ==> r.value < Size && r.value == Row(i) + 1
  {
    if Row(i) < Size - 1 then Some(Row(i) + 1) else None
  }

  /** `parentElement.previousElementSibling`: the index of the row above, if any. */
  function PreviousRow(i: nat): (r: Option<nat>)
    requires i < CellCount
    ensures r.None? <==> Row(i) == 0
    ensures r.Some? ==> r.value + 1 == Row(i)
  {
    if Row(i) > 0 then Some(Row(i) - 1) else None
  }

  /**
   * `getElementAtSameIndex`: the square of row `newRow` in the same column as
   * square `i`, or no square when there is no such row.
   */
  function ElementAtSameIndex(i: nat, newRow: Option<nat>): (r: Option<nat>)
    requires i < CellCount
    requires newRow.Some? ==> newRow.value < Size
    ensures r.Some? <==> newRow.Some?
    ensures r.Some? ==> r.value < CellCount && Row(r.value) == newRow.value && Col(r.value) == Col(i)
  {
    match newRow
    case None => None
    case Some(row) => Some(row * Size + Col(i))
  }

  /**
   * The square one step from `i` in direction `d`, found the way the ship
   * moves and `getPirateNextLocation` find it; none off the edge.
   */
  function Neighbour(i: nat, d: Direction): (r: Option<nat>)
    requires i < CellCount
    ensures r.Some? <==> OnBoard(Row(i) + RowStep(d), Col(i) + ColStep(d))
    ensures r.Some? ==> r.value < CellCount
    ensures r.Some? ==> Row(r.value) == Row(i) + RowStep(d) && Col(r.value) == Col(i) + ColStep(d)
  {
    match d
    case Up => ElementAtSameIndex(i, PreviousRow(i))
    case Down => ElementAtSameIndex(i, NextRow(i))
    case Left => PreviousSibling(i)
    case Right => NextSibling(i)
  }

  /** The number of squares carrying tag `t`. */
  function CountTag(g: Grid, t: Tag): (n: nat)
    ensures n <= |g|
  {
    if g == [] then 0 else (if t in g[0] then 1 else 0) + CountTag(g[1..], t)
  }

  /** Replacing one square changes the count by what that square loses and gains. */
  lemma {:induction false} CountUpdate(g: Grid, i: nat, c: Cell, t: Tag)
    requires i < |g|
    ensures CountTag(g[i := c], t)
         == CountTag(g, t) - (if t in g[i] then 1 else 0) + (if t in c then 1 else 0)
  {
    if i == 0 {
      assert g[i := c][1..] == g[1..];
    } else {
      assert g[i := c][1..] == g[1..][i - 1 := c];
      CountUpdate(g[1..], i - 1, c, t);
    }
  }

  /** No square carries the tag exactly when its count is zero. */
  lemma {:induction false} CountZero(g: Grid, t: Tag)
    ensures CountTag(g, t) == 0 <==> forall i :: 0 <= i < |g| ==> t !in g[i]
  {
    if g != [] {
      CountZero(g[1..], t);
      if CountTag(g, t) == 0 {
        forall i | 0 <= i < |g| ensures t !in g[i] {
          if i > 0 { assert g[i] == g[1..][i - 1]; }
        }
      }
      if forall i :: 0 <= i < |g| ==> t !in g[i] {
        forall i | 0 <= i < |g[1..]| ensures t !in g[1..][i] {
          assert g[1..][i] == g[i + 1];
        }
      }
    }
  }

  /** Two grids whose squares agree on tag `t` have the same count of it. */
  lemma {:induction false} CountSame(g: Grid, h: Grid, t: Tag)
    requires |g| == |h|
    requires forall i :: 0 <= i < |g| ==> (t in g[i] <==> t in h[i])
    ensures CountTag(g, t) == CountTag(h, t)
  {
    if g != [] {
      forall i | 0 <= i < |g[1..]| ensures t in g[1..][i] <==> t in h[1..][i] {
        assert g[1..][i] == g[i + 1] && h[1..][i] == h[i + 1];
      }
      CountSame(g[1..], h[1..], t);
    }
  }

  /** A square carrying the tag that is the only one so tagged: the count is one. */
  lemma {:induction false} CountOne(g: Grid, i: nat, t: Tag)
    requires i < |g| && t in g[i]
    requires forall j :: 0 <= j < |g| && j != i ==> t !in g[j]
    ensures CountTag(g, t) == 1
  {
    CountUpdate(g, i, g[i] - {t}, t);
    CountZero(g[i := g[i] - {t}], t);
    assert g[i := g[i] - {t}][i := g[i]] == g;
  }

  /** `querySelector('.t')` from position `k` on: the first square at or after `k` carrying `t`. */
  function FirstFrom(g: Grid, t: Tag, k: nat): (r: Option<nat>)
    requires k <= |g|
    decreases |g| - k
    ensures r.None? <==> forall i :: k <= i < |g| ==> t !in g[i]
    ensures r.Some? ==> k <= r.value < |g| && t in g[r.value]
    ensures r.Some? ==> forall i :: k <= i < r.value ==> t !in g[i]
  {
    if k == |g| then None
    else if t in g[k] then Some(k)
    else FirstFrom(g, t, k + 1)
  }

  /** `querySelector('.t')`: the first square in document order carrying `t`, if any. */
  function FirstWith(g: Grid, t: Tag): (r: Option<nat>)
    ensures r.None? <==> forall i :: 0 <= i < |g| ==> t !in g[i]
    ensures r.Some? ==> r.value < |g| && t in g[r.value]
    ensures r.Some? ==> forall i :: 0 <= i < r.value ==> t !in g[i]
  {
    FirstFrom(g, t, 0)
  }

  /** `querySelectorAll('.t')` from position `k` on, in document order. */
  function HoldersFrom(g: Grid, t: Tag, k: nat): (r: seq<nat>)
    requires k <= |g|
    decreases |g| - k
    ensures forall j :: 0 <= j < |r| ==> k <= r[j] < |g| && t in g[r[j]]
    ensures forall i :: k <= i < |g| && t in g[i] ==> i in r
    ensures forall j, j' :: 0 <= j < j' < |r| ==> r[j] < r[j']
  {
    if k == |g| then []
    else if t in g[k] then [k] + HoldersFrom(g, t, k + 1)
    else HoldersFrom(g, t, k + 1)
  }

  /** `querySelectorAll('.t')`: every square carrying `t`, once each, in document order. */
  function Holders(g: Grid, t: Tag): (r: seq<nat>)
    ensures forall j :: 0 <= j < |r| ==> r[j] < |g| && t in g[r[j]]
    ensures forall i :: 0 <= i < |g| && t in g[i] ==> i in r
    ensures forall j, j' :: 0 <= j < j' < |r| ==> r[j] < r[j']
  {
    HoldersFrom(g, t, 0)
  }
}

=== FILE: game.dfy ===
/**
 * The game as the page runs it: one object whose squares are updated in
 * place. Each method performs the steps of the function of the same name in
 * `app.js` and is proved to agree with the corresponding function of
 * module `Rules`; the public operations keep the invariant `Valid`.
 */
module PirateGame {
  import opened Wrappers
  import opened Board
  import Rules
  import Properties

  class Game {
    /** The class lists of the 100 squares, in document order. */
    const cells: array<Cell>
    /** The text of the announcement heading. */
    var status: string
    /** Whether the announcement carries the `winText` class. */
    var winText: bool
    /** Stands for the interval handle `clock`: whether `runTick` is scheduled. */
    var clockRunning: bool

    function Model(): Rules.State
      reads this, cells
    {
      Rules.State(cells[..], status, winText, clockRunning)
    }

    ghost predicate Valid()
      reads this, cells
    {
      cells.Length == CellCount && Rules.Consistent(Model())
    }

    /** `getShipLocation`: the first square carrying the boat, if any. */
    function ShipLocation(): (r: Option<nat>)
      reads cells
      ensures r.None? <==> forall i :: 0 <= i < cells.Length ==> Boat !in cells[i]
      ensures r.Some? ==> r.value < cells.Length && Boat in cells[r.value]
      ensures r.Some? ==> forall i :: 0 <= i < r.value ==> Boat !in cells[i]
    {
      FirstWith(cells[..], Boat)
    }

    /** `createGrid`: an empty 10x10 board, then a reset. */
    constructor (draws: seq<int>)
      requires Rules.ValidDraws(draws)
      ensures Valid() && Model() == Rules.ResetGame(Rules.Blank(), draws)
    {
      cells := new Cell[CellCount](i => {});
      status := "";
      winText := false;
      clockRunning := false;
      new;
      assert Model() == Rules.Blank();
      Properties.BlankIsSound();
      ResetGame(draws);
    }

    method MoveShipRight()
      requires Valid()
      modifies this, cells
      ensures Valid() && Model() == Rules.MoveShipDirection(old(Model()), Right)
    {
      Properties.MoveShipKeepsConsistent(Model(), Right);
      var ship := ShipLocation();
      if ship.None? {
        return;
      }
      var right := NextSibling(ship.value);
      MoveShip(ship.value, right);
    }

    method MoveShipLeft()
      requires Valid()
      modifies this, cells
      ensures Valid() && Model() == Rules.MoveShipDirection(old(Model()), Left)
    {
      Properties.MoveShipKeepsConsistent(Model(), Left);
      var ship := ShipLocation();
      if ship.None? {
        return;
      }
      var left := PreviousSibling(ship.value);
      MoveShip(ship.value, left);
    }

    method MoveShipDown()
      requires Valid()
      modifies this, cells
      ensures Valid() && Model() == Rules.MoveShipDirection(old(Model()), Down)
    {
      Properties.MoveShipKeepsConsistent(Model(), Down);
      var ship := ShipLocation();
      if ship.None? {
        return;
      }
      var newRow := NextRow(ship.value);
      var down := ElementAtSameIndex(ship.value, newRow);
      MoveShip(ship.value, down);
    }

    method MoveShipUp()
      requires Valid()
      modifies this, cells
      ensures Valid() && Model() == Rules.MoveShipDirection(old(Model()), Up)
    {
      Properties.MoveShipKeepsConsistent(Model(), Up);
      var ship := ShipLocation();
      if ship.None? {
        return;
      }
      var newRow := PreviousRow(ship.value);
      var up := ElementAtSameIndex(ship.value, newRow);
      MoveShip(ship.value, up);
    }

    /** `moveShip`: win, lose, move or do nothing, in that order of precedence. */
    method MoveShip(from: nat, to: Option<nat>)
      requires ShipLocation() == Some(from)
      requires to.Some? ==> to.value < cells.Length
      modifies this, cells
      ensures Model() == Rules.MoveShip(old(Model()), from, to)
    {
      if Rules.IsWin(cells[..], to) {
        Win();
      } else if Rules.IsLoss(cells[..], to) {
        Lose(Rules.HitObstacle);
      } else if Rules.CanMoveToNewLocation(cells[..], to) {
        cells[from] := cells[from] - {Boat};
        cells[to.value] := cells[to.value] + {Boat};
      }
    }

    method Win()
      requires ShipLocation().Some?
      modifies this, cells
      ensures Model() == Rules.Win(old(Model()))
    {
      winText := true;
      status := Rules.YouWin;
      var ship := ShipLocation().value;
      cells[ship] := cells[ship] - {Boat};
      clockRunning := false;
    }

    method Lose(message: string)
      requires ShipLocation().Some?
      modifies this, cells
      ensures Model() == Rules.Lose(old(Model()), message)
    {
      status := message;
      var ship := ShipLocation().value;
      cells[ship] := cells[ship] - {Boat};
      cells[ship] := cells[ship] + {BoatExplosion};
      clockRunning := false;
    }

    /** The callback `lose` schedules, run on the square it captured. */
    method FinishSinking(at: nat)
      requires Valid() && at < cells.Length
      modifies cells
      ensures Valid() && Model() == Rules.FinishSinking(old(Model()), at)
    {
      Properties.FinishSinkingKeepsConsistent(Model(), at);
      cells[at] := cells[at] - {BoatExplosion};
      cells[at] := cells[at] + {BoatSunk};
      assert Model() == Rules.FinishSinking(old(Model()), at);
    }

    method ResetGame(draws: seq<int>)
      requires cells.Length == CellCount && Rules.BoardSound(cells[..]) && Rules.ValidDraws(draws)
      modifies this, cells
      ensures Valid() && Model() == Rules.ResetGame(old(Model()), draws)
    {
      Properties.ResetGameStartsPlay(Model(), draws);
      ResetBoat();
      CreateObstacles(draws);
      cells[TopLeft] := cells[TopLeft] + {Boat};
      cells[BottomRight] := cells[BottomRight] + {Treasure};
      status := Rules.Play;
      winText := false;
      clockRunning := true;
    }

    method ResetBoat()
      modifies cells
      ensures cells[..] == Rules.ResetBoat(old(cells[..]))
    {
      var ship := ShipLocation();
      if ship.Some? {
        cells[ship.value] := cells[ship.value] - {Boat};
      }
      var sunkenShip := FirstWith(cells[..], BoatSunk);
      if sunkenShip.Some? {
        cells[sunkenShip.value] := cells[sunkenShip.value] - {BoatSunk};
      }
    }

    /** `createObstacles`: every square but the two corners, row by row, one draw each. */
    method CreateObstacles(draws: seq<int>)
      requires cells.Length == CellCount && Rules.ValidDraws(draws)
      modifies cells
      ensures cells[..] == Rules.CreateObstacles(old(cells[..]), draws)
    {
      ghost var target := Rules.CreateObstacles(cells[..], draws);
      var rowIndex := 0;
      while rowIndex < Size
        invariant 0 <= rowIndex <= Size
        invariant forall i :: 0 <= i < CellCount ==>
          cells[i] == if i < rowIndex * Size then target[i] else old(cells[i])
      {
        var cellIndex := 0;
        while cellIndex < Size
          invariant 0 <= cellIndex <= Size
          invariant forall i :: 0 <= i < CellCount ==>
            cells[i] == if i < rowIndex * Size + cellIndex then target[i] else old(cells[i])
        {
          if !(cellIndex == 0 && rowIndex == 0) && !(cellIndex == Size - 1 && rowIndex == Size - 1) {
            var i := rowIndex * Size + cellIndex;
            AddObstacles(i, draws[i - 1]);
          }
          cellIndex := cellIndex + 1;
        }
        rowIndex := rowIndex + 1;
      }
      assert cells[..] == target;
    }

    /** `addObstacles` on square `i`, with the draw `rand` in 1..100. */
    method AddObstacles(i: nat, rand: int)
      requires i < cells.Length && 1 <= rand <= 100
      modifies cells
      ensures cells[..] == old(cells[..])[i := Rules.AddObstacles(old(cells[i]), rand)]
    {
      cells[i] := cells[i] - {Pirate};
      cells[i] := cells[i] - {Iceberg};
      if rand > 85 {
        cells[i] := cells[i] + {Iceberg};
      } else if rand > 80 {
        cells[i] := cells[i] + {Pirate};
      }
    }

    /**
     * `runTick`: each pirate of the snapshot taken at the start, in document
     * order, with one direction draw in 0..3 each.
     */
    method RunTick(dirs: seq<int>)
      requires Valid()
      requires |dirs| == |Holders(cells[..], Pirate)| && Rules.ValidDirections(dirs)
      modifies this, cells
      ensures Valid() && Model() == Rules.RunTick(old(Model()), dirs)
    {
      Properties.RunTickKeepsConsistent(Model(), dirs);
      var pirates := Holders(cells[..], Pirate);
      var k := 0;
      while k < |pirates|
        invariant 0 <= k <= |pirates|
        invariant Rules.TickFrom(Model(), pirates[k..], dirs[k..]) == Rules.RunTick(old(Model()), dirs)
      {
        var pirate := pirates[k];
        var newLocation := Neighbour(pirate, DirectionOf(dirs[k]));
        if Rules.IsPirateWin(cells[..], newLocation) {
          Lose(Rules.SunkByPirate);
        } else if Rules.CanPirateMoveToElement(cells[..], newLocation) {
          cells[pirate] := cells[pirate] - {Pirate};
          cells[newLocation.value] := cells[newLocation.value] + {Pirate};
        }
        k := k + 1;
      }
    }
  }
}

=== FILE: properties.dfy ===
/**
 * What the rules guarantee: the outcome of each kind of ship move, the
 * reset, obstacle placement and the pirate tick, and that every operation
 * keeps the game invariant `Consistent`.
 */
module Properties {
  import opened Wrappers
  import opened Board
  import opened Rules

  /** The board before the first reset is fit for a reset. */
  lemma BlankIsSound()
    ensures BoardSound(Blank().cells)
  {
    CountZero(Blank().cells, Boat);
  }

  /** While a boat exists the clock runs, and that boat is the only one. */
  lemma SoleBoat(s: State, ship: nat)
    requires Consistent(s) && ship < |s.cells| && Boat in s.cells[ship]
    ensures s.clockRunning && CountTag(s.cells, Boat) == 1
    ensures FirstWith(s.cells, Boat) == Some(ship)
    ensures forall j :: 0 <= j < |s.cells| && j != ship ==> Boat !in s.cells[j]
  {
    CountZero(s.cells, Boat);
    var g := s.cells[ship := s.cells[ship] - {Boat}];
    CountUpdate(s.cells, ship, g[ship], Boat);
    CountZero(g, Boat);
    forall j | 0 <= j < |s.cells| && j != ship ensures Boat !in s.cells[j] {
      assert g[j] == s.cells[j];
    }
  }

  /** Once the game is over there is no boat, so no ship move changes anything. */
  lemma GameOverIgnoresMoves(s: State, d: Direction)
    requires Consistent(s) && !s.clockRunning
    ensures MoveShipDirection(s, d) == s
  {
    CountZero(s.cells, Boat);
  }

  /** A step off the edge of the board finds no square, and nothing changes. */
  lemma MoveOffEdgeChangesNothing(s: State, d: Direction, ship: nat)
    requires |s.cells| == CellCount && FirstWith(s.cells, Boat) == Some(ship)
    requires !OnBoard(Row(ship) + RowStep(d), Col(ship) + ColStep(d))
    ensures MoveShipDirection(s, d) == s
  {
  }

  /** `win` takes the only boat off the board and leaves everything else in place. */
  lemma WinEndsGame(s: State)
    requires Consistent(s) && FirstWith(s.cells, Boat).Some?
    ensures var r := Win(s);
      && r.status == YouWin && r.winText && !r.clockRunning
      && CountTag(r.cells, Boat) == 0
      && (forall i :: 0 <= i < |s.cells| ==> r.cells[i] - {Boat} == s.cells[i] - {Boat})
      && Consistent(r)
  {
    var ship := FirstWith(s.cells, Boat).value;
    SoleBoat(s, ship);
    CountUpdate(s.cells, ship, s.cells[ship] - {Boat}, Boat);
  }

  /** `lose` turns the only boat into an explosion on the same square. */
  lemma LoseEndsGame(s: State, message: string)
    requires Consistent(s) && FirstWith(s.cells, Boat).Some?
    ensures var r := Lose(s, message); var ship := FirstWith(s.cells, Boat).value;
      && r.status == message && r.winText == s.winText && !r.clockRunning
      && r.cells[ship] == s.cells[ship] - {Boat} + {BoatExplosion}
      && (forall i :: 0 <= i < |s.cells| && i != ship ==> r.cells[i] == s.cells[i])
      && CountTag(r.cells, Boat) == 0
      && Consistent(r)
  {
    var ship := FirstWith(s.cells, Boat).value;
    SoleBoat(s, ship);
    CountUpdate(s.cells, ship, s.cells[ship] - {Boat} + {BoatExplosion}, Boat);
  }

  /**
   * Moving onto the treasure wins: the boat leaves its square without being
   * placed anywhere, the treasure square is untouched and the clock stops.
   */
  lemma MoveOntoTreasure(s: State, d: Direction, ship: nat, to: nat)
    requires Consistent(s) && FirstWith(s.cells, Boat) == Some(ship)
    requires Neighbour(ship, d) == Some(to) && Treasure in s.cells[to]
    ensures var r := MoveShipDirection(s, d);
      && r.status == YouWin && r.winText && !r.clockRunning
      && r.cells == s.cells[ship := s.cells[ship] - {Boat}]
      && r.cells[to] == s.cells[to]
      && CountTag(r.cells, Boat) == 0
      && Consistent(r)
  {
    WinEndsGame(s);
  }

  /**
   * Moving onto a pirate or an iceberg loses: the boat's square becomes an
   * explosion, the obstacle's square is untouched and the clock stops.
   */
  lemma MoveOntoObstacle(s: State, d: Direction, ship: nat, to: nat)
    requires Consistent(s) && FirstWith(s.cells, Boat) == Some(ship)
    requires Neighbour(ship, d) == Some(to)
    requires Pirate in s.cells[to] || Iceberg in s.cells[to]
    ensures var r := MoveShipDirection(s, d);
      && r.status == HitObstacle && r.winText == s.winText && !r.clockRunning
      && r.cells == s.cells[ship := s.cells[ship] - {Boat} + {BoatExplosion}]
      && r.cells[to] == s.cells[to]
      && CountTag(r.cells, Boat) == 0
      && Consistent(r)
  {
    LoseEndsGame(s, HitObstacle);
  }

  /**
   * Moving onto a square with no obstacle and no treasure carries the boat
   * there and changes no other square; the boat stays the only one.
   */
  lemma MoveIntoOpenWater(s: State, d: Direction, ship: nat, to: nat)
    requires Consistent(s) && FirstWith(s.cells, Boat) == Some(ship)
    requires Neighbour(ship, d) == Some(to)
    requires Pirate !in s.cells[to] && Iceberg !in s.cells[to] && Treasure !in s.cells[to]
    ensures var r := MoveShipDirection(s, d);
      && r.status == s.status && r.winText == s.winText && r.clockRunning == s.clockRunning
      && r.cells[ship] == s.cells[ship] - {Boat}
      && r.cells[to] == s.cells[to] + {Boat}
      && (forall i :: 0 <= i < |s.cells| && i != ship && i != to ==> r.cells[i] == s.cells[i])
      && CountTag(r.cells, Boat) == 1 && FirstWith(r.cells, Boat) == Some(to)
      && Consistent(r)
  {
    SoleBoat(s, ship);
    var left := s.cells[ship := s.cells[ship] - {Boat}];
    var r := MoveShipDirection(s, d);
    assert r.cells == left[to := left[to] + {Boat}];
    CountUpdate(s.cells, ship, left[ship], Boat);
    CountUpdate(left, to, left[to] + {Boat}, Boat);
    CountZero(left, Boat);
  }

  /**
   * From the start square, three moves right over open water bring the ship
   * to row 0, column 3, with the game still in play.
   */
  lemma ThreeMovesRight(s: State)
    requires Consistent(s) && FirstWith(s.cells, Boat) == Some(TopLeft)
    requires forall i :: 1 <= i <= 3 ==>
      Pirate !in s.cells[i] && Iceberg !in s.cells[i] && Treasure !in s.cells[i]
    ensures var r := MoveShipDirection(MoveShipDirection(MoveShipDirection(s, Right), Right), Right);
      && FirstWith(r.cells, Boat) == Some(3) && Row(3) == 0 && Col(3) == 3
      && r.clockRunning && r.status == s.status
  {
    var s1 := MoveShipDirection(s, Right);
    MoveIntoOpenWater(s, Right, 0, 1);
    var s2 := MoveShipDirection(s1, Right);
    MoveIntoOpenWater(s1, Right, 1, 2);
    MoveIntoOpenWater(s2, Right, 2, 3);
  }

  /** Every ship move keeps the game invariant. */
  lemma MoveShipKeepsConsistent(s: State, d: Direction)
    requires Consistent(s)
    ensures Consistent(MoveShipDirection(s, d))
  {
    match FirstWith(s.cells, Boat)
    case None =>
    case Some(ship) =>
      match Neighbour(ship, d)
      case None =>
      case Some(to) =>
        if Treasure in s.cells[to] {
          MoveOntoTreasure(s, d, ship, to);
        } else if Pirate in s.cells[to] || Iceberg in s.cells[to] {
          MoveOntoObstacle(s, d, ship, to);
        } else {
          MoveIntoOpenWater(s, d, ship, to);
        }
  }

  /** With at most one square carrying `t`, untagging the first leaves none. */
  lemma RemoveFirstClears(g: Grid, t: Tag)
    requires CountTag(g, t) <= 1
    ensures forall i :: 0 <= i < |g| ==> t !in RemoveFirst(g, t)[i]
  {
    match FirstWith(g, t)
    case Some(k) =>
      CountZero(g, t);
      CountUpdate(g, k, g[k] - {t}, t);
      CountZero(RemoveFirst(g, t), t);
    case None =>
  }

  /**
   * With at most one boat and at most one sunk boat, `resetBoat` leaves
   * neither; every other tag stays where it was.
   */
  lemma ResetBoatClears(g: Grid)
    requires CountTag(g, Boat) <= 1 && CountTag(g, BoatSunk) <= 1
    ensures forall i :: 0 <= i < |g| ==> Boat !in ResetBoat(g)[i] && BoatSunk !in ResetBoat(g)[i]
    ensures forall i :: 0 <= i < |g| ==> ResetBoat(g)[i] - {Boat, BoatSunk} == g[i] - {Boat, BoatSunk}
  {
    var afloat := RemoveFirst(g, Boat);
    RemoveFirstClears(g, Boat);
    CountSame(g, afloat, BoatSunk);
    RemoveFirstClears(afloat, BoatSunk);
    forall i | 0 <= i < |g| ensures ResetBoat(g)[i] - {Boat, BoatSunk} == g[i] - {Boat, BoatSunk} {
      assert ResetBoat(g)[i] - {BoatSunk} == afloat[i] - {BoatSunk};
      assert afloat[i] - {Boat} == g[i] - {Boat};
    }
  }

  /**
   * A reset from a sound board starts a new game: exactly one boat, on the
   * top-left square, the treasure on the bottom-right one, "Play!" without
   * `winText`, and the clock running.
   */
  lemma ResetGameStartsPlay(s: State, draws: seq<int>)
    requires BoardSound(s.cells) && ValidDraws(draws)
    ensures var r := ResetGame(s, draws);
      && r.status == Play && !r.winText && r.clockRunning
      && Treasure in r.cells[BottomRight]
      && FirstWith(r.cells, Boat) == Some(TopLeft) && CountTag(r.cells, Boat) == 1
      && Consistent(r)
  {
    var afloat := RemoveFirst(s.cells, Boat);
    RemoveFirstClears(s.cells, Boat);
    var cleared := ResetBoat(s.cells);
    var placed := CreateObstacles(cleared, draws);
    var withBoat := placed[TopLeft := placed[TopLeft] + {Boat}];
    var r := ResetGame(s, draws);
    assert r.cells == withBoat[BottomRight := withBoat[BottomRight] + {Treasure}];
    forall i | 0 <= i < CellCount
      ensures Treasure in r.cells[i] <==> i == BottomRight
      ensures Boat in r.cells[i] <==> i == TopLeft
      ensures !(Pirate in r.cells[i] && Iceberg in r.cells[i])
      ensures i == BottomRight ==> Pirate !in r.cells[i] && Iceberg !in r.cells[i]
      ensures i == TopLeft ==> Iceberg !in r.cells[i]
    {
      assert cleared[i] - {BoatSunk} == afloat[i] - {BoatSunk};
      assert afloat[i] - {Boat} == s.cells[i] - {Boat};
      assert placed[i] - {Pirate, Iceberg} == cleared[i] - {Pirate, Iceberg};
      assert Treasure in placed[i] <==> Treasure in s.cells[i];
      assert Boat !in placed[i];
      if i == TopLeft || i == BottomRight {
        assert placed[i] == cleared[i];
        assert Pirate in placed[i] <==> Pirate in s.cells[i];
        assert Iceberg in placed[i] <==> Iceberg in s.cells[i];
      }
    }
    CountZero(placed, Boat);
    CountOne(r.cells, TopLeft, Boat);
  }

  /** With at most one sunk boat on the board, a reset leaves none. */
  lemma ResetGameClearsWreck(s: State, draws: seq<int>)
    requires BoardSound(s.cells) && ValidDraws(draws) && CountTag(s.cells, BoatSunk) <= 1
    ensures forall i :: 0 <= i < CellCount ==> BoatSunk !in ResetGame(s, draws).cells[i]
  {
    ResetBoatClears(s.cells);
    var cleared := ResetBoat(s.cells);
  }

  /**
   * `createObstacles` skips the top-left square, so a pirate that wandered
   * onto it survives the reset and shares the square with the new boat.
   */
  lemma ResetGameKeepsCornerPirate(s: State, draws: seq<int>)
    requires BoardSound(s.cells) && ValidDraws(draws) && Pirate in s.cells[TopLeft]
    ensures Pirate in ResetGame(s, draws).cells[TopLeft] && Boat in ResetGame(s, draws).cells[TopLeft]
  {
  }

  /** A pirate step never takes the pirate tag from any square but the mover's own. */
  lemma PirateStepKeepsOtherPirates(s: State, p: nat, d: Direction, q: nat)
    requires |s.cells| == CellCount && p < CellCount && q < CellCount
    requires q != p && Pirate in s.cells[q]
    ensures Pirate in PirateStep(s, p, d).cells[q]
  {
  }

  /**
   * A square gains a pirate only as the on-board neighbour of the mover in
   * the drawn direction, and only if it held no iceberg, treasure or boat;
   * the mover's own square is left without its pirate.
   */
  lemma PirateStepMovesIntoOpenWater(s: State, p: nat, d: Direction, i: nat)
    requires |s.cells| == CellCount && p < CellCount && i < CellCount
    requires Pirate !in s.cells[i] && Pirate in PirateStep(s, p, d).cells[i]
    ensures Neighbour(p, d) == Some(i)
    ensures Iceberg !in s.cells[i] && Treasure !in s.cells[i] && Boat !in s.cells[i]
    ensures Pirate !in PirateStep(s, p, d).cells[p]
  {
  }

  /**
   * A pirate whose target holds the boat sinks it: the loss is announced
   * with the pirate's message and the clock stops, but the pirate stays put.
   */
  lemma PirateSinksShip(s: State, p: nat, d: Direction, ship: nat)
    requires Consistent(s) && p < CellCount && Pirate in s.cells[p]
    requires Neighbour(p, d) == Some(ship) && Boat in s.cells[ship]
    ensures var r := PirateStep(s, p, d);
      && r == Lose(s, SunkByPirate)
      && r.status == SunkByPirate && r.winText == s.winText && !r.clockRunning
      && r.cells[p] == s.cells[p]
      && r.cells[ship] == s.cells[ship] - {Boat} + {BoatExplosion}
      && (forall i :: 0 <= i < CellCount && i != ship ==> r.cells[i] == s.cells[i])
      && CountTag(r.cells, Boat) == 0
  {
    SoleBoat(s, ship);
    LoseEndsGame(s, SunkByPirate);
  }

  /** A pirate step that moves a pirate keeps every tag count but moves one pirate. */
  lemma PirateStepKeepsTags(s: State, p: nat, d: Direction)
    requires |s.cells| == CellCount && p < CellCount && Pirate in s.cells[p]
    ensures var r := PirateStep(s, p, d);
      && CountTag(r.cells, Pirate) == CountTag(s.cells, Pirate)
      && forall i :: 0 <= i < CellCount ==>
           (Iceberg in r.cells[i] <==> Iceberg in s.cells[i]) && (Treasure in r.cells[i] <==> Treasure in s.cells[i])
  {
    var to := Neighbour(p, d);
    if IsPirateWin(s.cells, to) {
      CountSame(s.cells, PirateStep(s, p, d).cells, Pirate);
    } else if CanPirateMoveToElement(s.cells, to) {
      var vacated := s.cells[p := s.cells[p] - {Pirate}];
      CountUpdate(s.cells, p, vacated[p], Pirate);
      CountUpdate(vacated, to.value, vacated[to.value] + {Pirate}, Pirate);
    }
  }

  /** Every pirate step keeps the game invariant. */
  lemma PirateStepKeepsConsistent(s: State, p: nat, d: Direction)
    requires Consistent(s) && p < CellCount
    ensures Consistent(PirateStep(s, p, d))
  {
    var to := Neighbour(p, d);
    if IsPirateWin(s.cells, to) {
      LoseEndsGame(s, SunkByPirate);
    } else if CanPirateMoveToElement(s.cells, to) {
      var vacated := s.cells[p := s.cells[p] - {Pirate}];
      var r := PirateStep(s, p, d);
      CountSame(s.cells, r.cells, Boat);
    }
  }

  /**
   * The rest of a tick: while every pending square of the snapshot still
   * holds its pirate, the pirate count and the iceberg and treasure squares
   * come out unchanged.
   */
  lemma {:induction false} TickFromKeepsTags(s: State, snapshot: seq<nat>, dirs: seq<int>)
    requires |s.cells| == CellCount
    requires forall j :: 0 <= j < |snapshot| ==> snapshot[j] < CellCount && Pirate in s.cells[snapshot[j]]
    requires forall j, j' :: 0 <= j < j' < |snapshot| ==> snapshot[j] < snapshot[j']
    requires |dirs| == |snapshot| && ValidDirections(dirs)
    decreases |snapshot|
    ensures var r := TickFrom(s, snapshot, dirs);
      && CountTag(r.cells, Pirate) == CountTag(s.cells, Pirate)
      && forall i :: 0 <= i < CellCount ==>
           (Iceberg in r.cells[i] <==> Iceberg in s.cells[i]) && (Treasure in r.cells[i] <==> Treasure in s.cells[i])
  {
    if snapshot != [] {
      var p := snapshot[0];
      var next := PirateStep(s, p, DirectionOf(dirs[0]));
      PirateStepKeepsTags(s, p, DirectionOf(dirs[0]));
      forall j | 0 <= j < |snapshot[1..]| ensures Pirate in next.cells[snapshot[1..][j]] {
        PirateStepKeepsOtherPirates(s, p, DirectionOf(dirs[0]), snapshot[j + 1]);
      }
      TickFromKeepsTags(next, snapshot[1..], dirs[1..]);
    }
  }

  /**
   * `runTick` moves pirates but never creates or destroys one, and leaves
   * every iceberg and the treasure where they were.
   */
  lemma RunTickKeepsTags(s: State, dirs: seq<int>)
    requires |s.cells| == CellCount
    requires |dirs| == |Holders(s.cells, Pirate)| && ValidDirections(dirs)
    ensures var r := RunTick(s, dirs);
      && CountTag(r.cells, Pirate) == CountTag(s.cells, Pirate)
      && forall i :: 0 <= i < CellCount ==>
           (Iceberg in r.cells[i] <==> Iceberg in s.cells[i]) && (Treasure in r.cells[i] <==> Treasure in s.cells[i])
  {
    TickFromKeepsTags(s, Holders(s.cells, Pirate), dirs);
  }

  lemma {:induction false} TickFromKeepsConsistent(s: State, snapshot: seq<nat>, dirs: seq<int>)
    requires Consistent(s)
    requires forall j :: 0 <= j < |snapshot| ==> snapshot[j] < CellCount
    requires |dirs| == |snapshot| && ValidDirections(dirs)
    decreases |snapshot|
    ensures Consistent(TickFrom(s, snapshot, dirs))
  {
    if snapshot != [] {
      PirateStepKeepsConsistent(s, snapshot[0], DirectionOf(dirs[0]));
      TickFromKeepsConsistent(PirateStep(s, snapshot[0], DirectionOf(dirs[0])), snapshot[1..], dirs[1..]);
    }
  }

  /**
   * `runTick` keeps the game invariant: pirates never land on an iceberg,
   * the treasure or each other, and a sinking leaves no boat and no clock.
   */
  lemma RunTickKeepsConsistent(s: State, dirs: seq<int>)
    requires Consistent(s)
    requires |dirs| == |Holders(s.cells, Pirate)| && ValidDirections(dirs)
    ensures Consistent(RunTick(s, dirs))
    ensures CountTag(RunTick(s, dirs).cells, Pirate) == CountTag(s.cells, Pirate)
  {
    TickFromKeepsConsistent(s, Holders(s.cells, Pirate), dirs);
    RunTickKeepsTags(s, dirs);
  }

  /**
   * After a pirate sinks the boat mid-tick, the pirates later in the
   * snapshot still move, and one may sail into the exploding square.
   */
  lemma LatePirateEntersWreck(s: State, p1: nat, r1: int, p2: nat, r2: int, ship: nat)
    requires Consistent(s) && p1 < CellCount && p2 < CellCount && p1 != p2
    requires Pirate in s.cells[p1] && Pirate in s.cells[p2]
    requires 0 <= r1 < 4 && 0 <= r2 < 4
    requires Neighbour(p1, DirectionOf(r1)) == Some(ship) && Neighbour(p2, DirectionOf(r2)) == Some(ship)
    requires Boat in s.cells[ship] && Pirate !in s.cells[ship]
    ensures var r := TickFrom(s, [p1, p2], [r1, r2]);
      && r.status == SunkByPirate && !r.clockRunning
      && BoatExplosion in r.cells[ship] && Pirate in r.cells[ship]
      && Pirate !in r.cells[p2]
  {
    var mid := PirateStep(s, p1, DirectionOf(r1));
    PirateSinksShip(s, p1, DirectionOf(r1), ship);
    assert TickFrom(s, [p1, p2], [r1, r2]) == TickFrom(mid, [p2], [r2]);
    assert TickFrom(mid, [p2], [r2]) == PirateStep(mid, p2, DirectionOf(r2));
  }

  /** The delayed second phase of `lose` keeps the game invariant. */
  lemma FinishSinkingKeepsConsistent(s: State, at: nat)
    requires Consistent(s) && at < CellCount
    ensures var r := FinishSinking(s, at);
      && Consistent(r)
      && r.status == s.status && r.winText == s.winText && r.clockRunning == s.clockRunning
      && BoatSunk in r.cells[at] && BoatExplosion !in r.cells[at]
      && r.cells[at] - {BoatExplosion, BoatSunk} == s.cells[at] - {BoatExplosion, BoatSunk}
      && (forall i :: 0 <= i < CellCount && i != at ==> r.cells[i] == s.cells[i])
  {
    CountSame(s.cells, FinishSinking(s, at).cells, Boat);
  }
}

=== FILE: rules.dfy ===
/**
 * The game's rules as functions on a value: the predicates that judge a
 * target square, and one transition per operation of the game. The class in
 * game.dfy performs the same operations in place and is proved to agree
 * with these functions.
 */
module Rules {
  import opened Wrappers
  import opened Board

  /** The texts the announcement shows. */
  const Play := "Play!"
  const YouWin := "You Win!"
  const HitObstacle := "You hit an obstacle!"
  const SunkByPirate := "You were sunk by a pirate"

  /**
   * The whole game: the squares, the announcement text, whether the
   * announcement carries `winText`, and whether the pirate clock is running.
   */
  datatype State = State(cells: Grid, status: string, winText: bool, clockRunning: bool)

  /** The board before the first reset: empty squares and no clock. */
  function Blank(): State
  {
    State(seq(CellCount, i => {}), "", false, false)
  }

  /** A looked-up square exists and carries `t`; a missing square carries nothing. */
  predicate Has(g: Grid, at: Option<nat>, t: Tag)
  {
    at.Some? && at.value < |g| && t in g[at.value]
  }

  /** Squares `a` and `b` agree on which squares carry tag `t`. */
  predicate SameTag(a: Grid, b: Grid, t: Tag)
  {
    |a| == |b| && forall i :: 0 <= i < |a| ==> (t in a[i] <==> t in b[i])
  }

  predicate IsWin(g: Grid, to: Option<nat>)
    ensures IsWin(g, to) ==> to.Some? && to.value < |g| && Treasure in g[to.value]
  {
    Has(g, to, Treasure)
  }

  predicate IsLoss(g: Grid, to: Option<nat>)
    ensures to.None? ==> !IsLoss(g, to)
  {
    Has(g, to, Pirate) || Has(g, to, Iceberg)
  }

  predicate CanMoveToNewLocation(g: Grid, to: Option<nat>)
    ensures CanMoveToNewLocation(g, to) <==> to.Some? && !IsLoss(g, to)
  {
    to.Some? && !Has(g, to, Pirate) && !Has(g, to, Iceberg)
  }

  predicate IsPirateWin(g: Grid, to: Option<nat>)
    ensures to.None? ==> !IsPirateWin(g, to)
  {
    Has(g, to, Boat)
  }

  predicate CanPirateMoveToElement(g: Grid, to: Option<nat>)
    ensures CanPirateMoveToElement(g, to) <==> to.Some? && !IsLoss(g, to) && !IsWin(g, to)
  {
    CanMoveToNewLocation(g, to) && !Has(g, to, Treasure)
  }

  /** `win`: announce the win, take the boat off its square, stop the clock. */
  function Win(s: State): (r: State)
    requires FirstWith(s.cells, Boat).Some?
    ensures r.status == YouWin && r.winText && !r.clockRunning
    ensures |r.cells| == |s.cells| && CountTag(r.cells, Boat) == CountTag(s.cells, Boat) - 1
    ensures forall i :: 0 <= i < |s.cells| ==> r.cells[i] - {Boat} == s.cells[i] - {Boat}
  {
    var ship := FirstWith(s.cells, Boat).value;
    var cells := s.cells[ship := s.cells[ship] - {Boat}];
    CountUpdate(s.cells, ship, cells[ship], Boat);
    State(cells, YouWin, true, false)
  }

  /** `lose`: announce the loss, turn the boat's square into an explosion, stop the clock. */
  function Lose(s: State, message: string): (r: State)
    requires FirstWith(s.cells, Boat).Some?
    ensures r.status == message && r.winText == s.winText && !r.clockRunning
    ensures |r.cells| == |s.cells| && CountTag(r.cells, Boat) == CountTag(s.cells, Boat) - 1
    ensures forall i :: 0 <= i < |s.cells| && Boat in s.cells[i] && Boat !in r.cells[i] ==> BoatExplosion in r.cells[i]
    ensures forall i :: 0 <= i < |s.cells| ==>
      r.cells[i] - {Boat, BoatExplosion} == s.cells[i] - {Boat, BoatExplosion}
  {
    var ship := FirstWith(s.cells, Boat).value;
    var cells := s.cells[ship := s.cells[ship] - {Boat} + {BoatExplosion}];
    CountUpdate(s.cells, ship, cells[ship], Boat);
    State(cells, message, s.winText, false)
  }

  /**
   * `moveShip`: the rules in order: treasure wins, a pirate or an iceberg
   * loses, any other existing square takes the boat, and a missing square
   * changes nothing.
   */
  function MoveShip(s: State, from: nat, to: Option<nat>): (r: State)
    requires FirstWith(s.cells, Boat) == Some(from)
    requires to.Some? ==> to.value < |s.cells|
    ensures SameTag(s.cells, r.cells, Pirate) && SameTag(s.cells, r.cells, Iceberg)
    ensures SameTag(s.cells, r.cells, Treasure)
    ensures CountTag(r.cells, Boat) <= CountTag(s.cells, Boat)
  {
    if IsWin(s.cells, to) then
      var r := Win(s);
      KeepsTagsOutside(s.cells, r.cells, {Boat});
      r
    else if IsLoss(s.cells, to) then
      var r := Lose(s, HitObstacle);
      KeepsTagsOutside(s.cells, r.cells, {Boat, BoatExplosion});
      r
    else if CanMoveToNewLocation(s.cells, to) then
      var left := s.cells[from := s.cells[from] - {Boat}];
      var moved := left[to.value := left[to.value] + {Boat}];
      CountUpdate(s.cells, from, left[from], Boat);
      CountUpdate(left, to.value, moved[to.value], Boat);
      KeepsTagsOutside(s.cells, left, {Boat});
      KeepsTagsOutside(left, moved, {Boat});
      s.(cells := moved)
    else s
  }

  /** Grids that differ only in the tags of `drop` agree on every other tag. */
  lemma KeepsTagsOutside(g: Grid, h: Grid, drop: set<Tag>)
    requires |g| == |h|
    requires forall i :: 0 <= i < |g| ==> h[i] - drop == g[i] - drop
    ensures forall t :: t !in drop ==> SameTag(g, h, t)
  {
    forall t | t !in drop ensures SameTag(g, h, t) {
      forall i | 0 <= i < |g| ensures t in g[i] <==> t in h[i] {
        assert t in g[i] <==> t in g[i] - drop;
        assert t in h[i] <==> t in h[i] - drop;
      }
    }
  }

  /**
   * `moveShipUp`, `moveShipRight`, `moveShipDown`, `moveShipLeft`. With no
   * boat on the board (after a win or a loss) the original throws before
   * changing anything; here that is a move that changes nothing.
   */
  function MoveShipDirection(s: State, d: Direction): (r: State)
    requires |s.cells| == CellCount
    ensures SameTag(s.cells, r.cells, Pirate) && SameTag(s.cells, r.cells, Iceberg)
    ensures SameTag(s.cells, r.cells, Treasure)
    ensures CountTag(r.cells, Boat) <= CountTag(s.cells, Boat)
  {
    match FirstWith(s.cells, Boat)
    case None => s
    case Some(ship) => MoveShip(s, ship, Neighbour(ship, d))
  }

  /** `addObstacles` on one square, given the draw in 1..100. */
  function AddObstacles(c: Cell, rand: int): (r: Cell)
    requires 1 <= rand <= 100
    ensures r - {Pirate, Iceberg} == c - {Pirate, Iceberg}
    ensures Iceberg in r <==> rand > 85
    ensures Pirate in r <==> 80 < rand <= 85
  {
    var cleared := c - {Pirate} - {Iceberg};
    if rand > 85 then cleared + {Iceberg}
    else if rand > 80 then cleared + {Pirate}
    else cleared
  }

  /** One draw in 1..100 for each square but the two corners, in document order. */
  predicate ValidDraws(draws: seq<int>)
  {
    |draws| == CellCount - 2 && forall k :: 0 <= k < |draws| ==> 1 <= draws[k] <= 100
  }

  /** `createObstacles`: the square at index `i` (1..98) takes the draw `draws[i - 1]`. */
  function CreateObstacles(g: Grid, draws: seq<int>): (r: Grid)
    requires |g| == CellCount && ValidDraws(draws)
    ensures |r| == |g|
    ensures r[TopLeft] == g[TopLeft] && r[BottomRight] == g[BottomRight]
    ensures forall i :: TopLeft < i < BottomRight ==> !(Pirate in r[i] && Iceberg in r[i])
    ensures forall i :: 0 <= i < |g| ==> r[i] - {Pirate, Iceberg} == g[i] - {Pirate, Iceberg}
    ensures forall i :: TopLeft < i < BottomRight ==>
      && (Iceberg in r[i] <==> draws[i - 1] > 85)
      && (Pirate in r[i] <==> 80 < draws[i - 1] <= 85)
  {
    seq(CellCount, i requires 0 <= i < CellCount =>
      if i == TopLeft || i == BottomRight then g[i] else AddObstacles(g[i], draws[i - 1]))
  }

  /** `querySelector('.t')` then `classList.remove('t')`: untag the first square carrying `t`. */
  function RemoveFirst(g: Grid, t: Tag): (r: Grid)
    ensures |r| == |g|
    ensures forall i :: 0 <= i < |g| ==> r[i] - {t} == g[i] - {t}
    ensures CountTag(r, t) == if CountTag(g, t) > 0 then CountTag(g, t) - 1 else 0
  {
    match FirstWith(g, t)
    case Some(i) =>
      CountUpdate(g, i, g[i] - {t}, t);
      g[i := g[i] - {t}]
    case None =>
      CountZero(g, t);
      g
  }

  /** `resetBoat`: clear the first boat square, then the first sunk square, if any. */
  function ResetBoat(g: Grid): (r: Grid)
    ensures |r| == |g|
    ensures CountTag(r, Boat) == if CountTag(g, Boat) > 0 then CountTag(g, Boat) - 1 else 0
    ensures CountTag(r, BoatSunk) == if CountTag(g, BoatSunk) > 0 then CountTag(g, BoatSunk) - 1 else 0
    ensures forall i :: 0 <= i < |g| ==> r[i] - {Boat, BoatSunk} == g[i] - {Boat, BoatSunk}
  {
    var afloat := RemoveFirst(g, Boat);
    var r := RemoveFirst(afloat, BoatSunk);
    KeepsTagsOutside(g, afloat, {Boat});
    KeepsTagsOutside(afloat, r, {BoatSunk});
    CountSame(g, afloat, BoatSunk);
    CountSame(afloat, r, Boat);
    r
  }

  /** `resetGame`: clear the boat, lay new obstacles, place boat and treasure, start the clock. */
  function ResetGame(s: State, draws: seq<int>): (r: State)
    requires |s.cells| == CellCount && ValidDraws(draws)
    ensures r.status == Play && !r.winText && r.clockRunning
    ensures |r.cells| == CellCount && Boat in r.cells[TopLeft] && Treasure in r.cells[BottomRight]
    ensures forall i :: TopLeft < i < BottomRight ==> !(Pirate in r.cells[i] && Iceberg in r.cells[i])
    ensures forall i :: TopLeft < i < BottomRight ==>
      && (Iceberg in r.cells[i] <==> draws[i - 1] > 85)
      && (Pirate in r.cells[i] <==> 80 < draws[i - 1] <= 85)
  {
    var placed := CreateObstacles(ResetBoat(s.cells), draws);
    var withBoat := placed[TopLeft := placed[TopLeft] + {Boat}];
    State(withBoat[BottomRight := withBoat[BottomRight] + {Treasure}], Play, false, true)
  }

  /** The delayed second phase of `lose` on the square it captured. */
  function FinishSinking(s: State, at: nat): (r: State)
    requires at < |s.cells|
    ensures r.status == s.status && r.winText == s.winText && r.clockRunning == s.clockRunning
    ensures |r.cells| == |s.cells| && BoatSunk in r.cells[at] && BoatExplosion !in r.cells[at]
    ensures forall i :: 0 <= i < |s.cells| ==>
      r.cells[i] - {BoatExplosion, BoatSunk} == s.cells[i] - {BoatExplosion, BoatSunk}
    ensures forall i :: 0 <= i < |s.cells| && i != at ==> r.cells[i] == s.cells[i]
  {
    s.(cells := s.cells[at := s.cells[at] - {BoatExplosion} + {BoatSunk}])
  }

  /** One pass of the `runTick` loop body for the pirate on square `p` heading `d`. */
  function PirateStep(s: State, p: nat, d: Direction): (r: State)
    requires |s.cells| == CellCount && p < CellCount
    ensures |r.cells| == CellCount
    ensures SameTag(s.cells, r.cells, Iceberg) && SameTag(s.cells, r.cells, Treasure)
    ensures forall i :: 0 <= i < CellCount && Boat in r.cells[i] ==> Boat in s.cells[i]
    // A drawn neighbour with no pirate, iceberg, treasure or boat takes the pirate.
    ensures var to := Neighbour(p, d);
      to.Some? && Pirate !in s.cells[to.value] && Iceberg !in s.cells[to.value]
        && Treasure !in s.cells[to.value] && Boat !in s.cells[to.value] ==>
        && r.status == s.status && r.winText == s.winText && r.clockRunning == s.clockRunning
        && r.cells[p] == s.cells[p] - {Pirate}
        && r.cells[to.value] == s.cells[to.value] + {Pirate}
        && forall i :: 0 <= i < CellCount && i != p && i != to.value ==> r.cells[i] == s.cells[i]
    // A missing neighbour, or one with a pirate, iceberg or treasure but no boat, changes nothing.
    ensures var to := Neighbour(p, d);
      to.None? || (Boat !in s.cells[to.value]
        && (Pirate in s.cells[to.value] || Iceberg in s.cells[to.value] || Treasure in s.cells[to.value]))
      ==> r == s
  {
    var to := Neighbour(p, d);
    if IsPirateWin(s.cells, to) then Lose(s, SunkByPirate)
    else if CanPirateMoveToElement(s.cells, to) then
      var vacated := s.cells[p := s.cells[p] - {Pirate}];
      s.(cells := vacated[to.value := vacated[to.value] + {Pirate}])
    else s
  }

  predicate ValidDirections(dirs: seq<int>)
  {
    forall k :: 0 <= k < |dirs| ==> 0 <= dirs[k] < 4
  }

  /** The `runTick` loop over the rest of the snapshot, one direction draw per pirate. */
  function TickFrom(s: State, snapshot: seq<nat>, dirs: seq<int>): (r: State)
    requires |s.cells| == CellCount
    requires forall j :: 0 <= j < |snapshot| ==> snapshot[j] < CellCount
    requires |dirs| == |snapshot| && ValidDirections(dirs)
    decreases |snapshot|
    ensures |r.cells| == CellCount
    ensures SameTag(s.cells, r.cells, Iceberg) && SameTag(s.cells, r.cells, Treasure)
    ensures forall i :: 0 <= i < CellCount && Boat in r.cells[i] ==> Boat in s.cells[i]
  {
    if snapshot == [] then s
    else TickFrom(PirateStep(s, snapshot[0], DirectionOf(dirs[0])), snapshot[1..], dirs[1..])
  }

  /** `runTick`: every square that carried a pirate when the tick began, in document order. */
  function RunTick(s: State, dirs: seq<int>): (r: State)
    requires |s.cells| == CellCount
    requires |dirs| == |Holders(s.cells, Pirate)| && ValidDirections(dirs)
    ensures |r.cells| == CellCount
    ensures SameTag(s.cells, r.cells, Iceberg) && SameTag(s.cells, r.cells, Treasure)
    ensures forall i :: 0 <= i < CellCount && Boat in r.cells[i] ==> Boat in s.cells[i]
  {
    TickFrom(s, Holders(s.cells, Pirate), dirs)
  }

  /**
   * What a reset relies on: at most one boat, the treasure nowhere but the
   * bottom-right corner, no square with both a pirate and an iceberg, no
   * obstacle on the bottom-right corner and no iceberg on the top-left one.
   */
  predicate BoardSound(g: Grid)
  {
    && |g| == CellCount
    && CountTag(g, Boat) <= 1
    && (forall i :: 0 <= i < |g| && Treasure in g[i] ==> i == BottomRight)
    && (forall i :: 0 <= i < |g| ==> !(Pirate in g[i] && Iceberg in g[i]))
    && Pirate !in g[BottomRight] && Iceberg !in g[BottomRight]
    && Iceberg !in g[TopLeft]
  }

  /**
   * The game invariant: a sound board with the treasure in place, the boat
   * never on an iceberg or the treasure, and one boat while the clock runs,
   * none once the game is over.
   */
  predicate Consistent(s: State)
  {
    && BoardSound(s.cells)
    && Treasure in s.cells[BottomRight]
    && (forall i :: 0 <= i < |s.cells| && Boat in s.cells[i] ==> Iceberg !in s.cells[i] && Treasure !in s.cells[i])
    && CountTag(s.cells, Boat) == (if s.clockRunning then 1 else 0)
  }
}

=== FILE: wrappers.dfy ===
/** The optional value that stands for a DOM lookup that may come back `null`. */
module Wrappers {
  datatype Option<+T> = None | Some(value: T)
}
